=== FILE: README.md ===
# NsTmx object-group codec in Dafny

This project models the object-layer loader of NsTmx (`ObjectLayerLoader`).
The loader reads and writes the object groups of a Tiled TMX map. An object
group has a name, a nominal width and height, and a list of objects. An
object has a name, a type tag, a position, a size, an optional property set
and an optional polygon outline.

The loader has two forms:

- **Binary form** (read and written). The stream is a positional sequence of
  integer and string records. Here it is a sequence of tokens,
  `Token = I(int32) | S(string)`. Each decoder returns the value it read and
  the tokens it left, or `Fail` where the primitive reader is assumed to throw.
- **Markup form** (read only). The TMX element tree is a `Node` datatype with
  a tag, an attribute map and child elements, read through `GetNodeList` and
  `GetValue`.

The model is split into modules:

| module | content |
|---|---|
| `Model` | the datatypes, plus the absent/empty normalisation a binary round trip applies |
| `Stream` | the token stream and its two primitive readers |
| `Xml` | the element tree and its two accessors |
| `DotNet` | `string.Split`, `string.IsNullOrEmpty`, `int.TryParse`, and a reference `ToString` |
| `Seqs` | the keep-what-parses filter that both markup loops follow |
| `PolygonCodec` | the binary polygon and the markup `points` attribute |
| `PropertyCodec` | the interface to the property sub-codec, and one instance that satisfies it |
| `ObjectCodec` | the object block and the markup `object` elements |
| `GroupCodec` | the top level: `LoadObjectGroup` (both forms) and `SaveToBinary` |
| `Scenarios` | concrete instances |

The binary codec has an exact round-trip property. For every group list and
every trailing tokens `rest`, reading back `SaveToBinary(list) + rest` gives
the list and leaves `rest` unread. This holds up to one normalisation: an
empty list, an empty polygon and an empty property set all read back as
absent, because each of them is written as a count of 0. Saving the list
that was read back then writes the same tokens again. In the source, polygon
coordinates pass through a `float`, so this holds there only while every
coordinate lies within ±2^24 (see "Left out").

The markup reader is modelled twice, and the two are proved equal:

- as a pure function;
- as a method that follows the source's loop, including its lazy allocation
  (the list is created when the first item is added, so "nothing parsed"
  stays `null`).

## Model

| member | source | states |
|---|---|---|
| GroupCodec.LoadObjectGroup | NsTmx/Assets/Script/NsTmx/Loader/ObjectLayerLoader.cs:14-36 | A null or empty stream gives null and reads nothing. A group count of 0 or less gives null and consumes only the count. A positive count that reads successfully always gives a non-null list, and a non-null result holds exactly the counted number of groups. |
| GroupCodec.SaveToBinary | NsTmx/Assets/Script/NsTmx/Loader/ObjectLayerLoader.cs:38-58 | A null list is written as the single count 0. Otherwise the first token is the list's count. |
| GroupCodec.LoadGroup | NsTmx/Assets/Script/NsTmx/Loader/ObjectLayerLoader.cs:26-32 | A successful group read saw the name, width and height tokens, in that order, and the group holds those values. |
| GroupCodec.GroupRoundTrip | NsTmx/Assets/Script/NsTmx/Loader/ObjectLayerLoader.cs:24-33 | One saved group record reads back as the same group, up to normalisation. Reading stops exactly at the end of the record. |
| GroupCodec.GroupRecordsRoundTrip | NsTmx/Assets/Script/NsTmx/Loader/ObjectLayerLoader.cs:24-33 | The saved group records read back in order, up to normalisation. Reading stops exactly at the end of the last record. |
| GroupCodec.GroupsRoundTrip | NsTmx/Assets/Script/NsTmx/Loader/ObjectLayerLoader.cs:14-58 | Decoding the encoded group list, followed by any tokens, gives the same groups in the same order and leaves those tokens unread. This holds up to normalisation: a null or empty list decodes to null, and so do empty polygons and empty property sets. |
| GroupCodec.ResaveIdentical | NsTmx/Assets/Script/NsTmx/Loader/ObjectLayerLoader.cs:38-58 | Saving what was read back writes exactly the tokens that were read. |
| GroupCodec.GroupsOfNamed | NsTmx/Assets/Script/NsTmx/Loader/ObjectLayerLoader.cs:70-94 | Every group the markup loop keeps has a non-empty name. Nothing is kept if and only if no `objectgroup` element has a non-empty name. |
| GroupCodec.GroupsFromXml | NsTmx/Assets/Script/NsTmx/Loader/ObjectLayerLoader.cs:60-98 | The result is null if and only if there is no element or no `objectgroup` child has a non-empty name. Otherwise it is a non-empty list of named groups. |
| GroupCodec.GroupFromNode | NsTmx/Assets/Script/NsTmx/Loader/ObjectLayerLoader.cs:75-93 | A named element gives a group with that non-empty name. Width and height are each the parsed value, or 0 when the attribute is missing or does not parse. Its objects are those read from its `object` children. |
| GroupCodec.LoadObjectGroupXml | NsTmx/Assets/Script/NsTmx/Loader/ObjectLayerLoader.cs:60-98 | The early returns followed by the loop give exactly `GroupsFromXml`: the groups of the named elements in document order, or null when there are none. |
| GroupCodec.LoadGroupNodes | NsTmx/Assets/Script/NsTmx/Loader/ObjectLayerLoader.cs:69-96 | The source's loop, with lazy allocation, returns the groups of the named elements in order, or null when none is named. |
| GroupCodec.NamelessGroupSkipped | NsTmx/Assets/Script/NsTmx/Loader/ObjectLayerLoader.cs:75-77 | An `objectgroup` element whose name is missing or empty contributes nothing. The groups before and after it are kept, in order. |
| GroupCodec.GroupDimensionDefaults | NsTmx/Assets/Script/NsTmx/Loader/ObjectLayerLoader.cs:79-87 | A width (or height) that does not parse becomes 0. The other dimension, the name and the objects do not change. |
| ObjectCodec.SaveObjects | NsTmx/Assets/Script/NsTmx/Loader/ObjectLayerLoader.cs:100-116 | The object block starts with the object count. An empty group writes only the count 0. |
| ObjectCodec.SaveObject | NsTmx/Assets/Script/NsTmx/Loader/ObjectLayerLoader.cs:106-114 | An object record starts with name, type, x, y, width and height, in that order. Its length is those six, plus the property tokens, plus one count and two tokens per polygon point. |
| ObjectCodec.LoadObject | NsTmx/Assets/Script/NsTmx/Loader/ObjectLayerLoader.cs:123-134 | A successful read saw the name, type, x, y, width and height tokens, in that order, and the object holds exactly those values. |
| ObjectCodec.LoadObjects | NsTmx/Assets/Script/NsTmx/Loader/ObjectLayerLoader.cs:118-136 | A count of 0 or less yields no objects and consumes nothing after the count. Otherwise exactly that many objects are read. |
| ObjectCodec.ScalarsRoundTrip | NsTmx/Assets/Script/NsTmx/Loader/ObjectLayerLoader.cs:123-130 | Name, type, x, y, width and height are read back unchanged, in the order they are written. |
| ObjectCodec.ObjectRoundTrip | NsTmx/Assets/Script/NsTmx/Loader/ObjectLayerLoader.cs:107-114 | An object record reads back as the same object. The property set and the polygon come back as their own codecs return them. Reading stops exactly at the end of the record. |
| ObjectCodec.ObjectRecordsRoundTrip | NsTmx/Assets/Script/NsTmx/Loader/ObjectLayerLoader.cs:121-135 | A sequence of saved object records reads back in order, up to normalisation: empty polygons and empty property sets read back as null. |
| ObjectCodec.ObjectsRoundTrip | NsTmx/Assets/Script/NsTmx/Loader/ObjectLayerLoader.cs:100-136 | A saved object block reads back as the same objects in the same order, leaving whatever follows unread. This holds up to normalisation: empty polygons and empty property sets read back as null. |
| ObjectCodec.ObjectsResave | NsTmx/Assets/Script/NsTmx/Loader/ObjectLayerLoader.cs:100-116 | Saving the normalised objects writes the same tokens as saving the originals. |
| ObjectCodec.ObjectsFromNodes | NsTmx/Assets/Script/NsTmx/Loader/ObjectLayerLoader.cs:147-181 | Every `object` element yields exactly one object, at the same position. |
| ObjectCodec.ObjectFromNode | NsTmx/Assets/Script/NsTmx/Loader/ObjectLayerLoader.cs:152-180 | Name and type are taken as they are when present. Each of x, y, width and height is 0 when its attribute is missing or does not parse, and otherwise is the parsed value. The polygon is the element's markup polygon. |
| ObjectCodec.ObjectsFromXml | NsTmx/Assets/Script/NsTmx/Loader/ObjectLayerLoader.cs:143-181 | The objects of a group element: one per `object` child, at the same index. |
| ObjectCodec.UnparsableAttrDefaults | NsTmx/Assets/Script/NsTmx/Loader/ObjectLayerLoader.cs:156-174 | Any one of x, y, width or height that does not parse becomes 0. The other three numeric fields, the name, the type and the polygon do not change. |
| ObjectCodec.BareObjectDefaults | NsTmx/Assets/Script/NsTmx/Loader/ObjectLayerLoader.cs:152-176 | An `object` element without attributes still yields an object, with all numeric fields 0. |
| ObjectCodec.ObjectNodeRoundTrip | NsTmx/Assets/Script/NsTmx/Loader/ObjectLayerLoader.cs:152-176 | Name and type are taken as they are. Every integer written as an attribute is read back as that integer. |
| PolygonCodec.SavePolygon | NsTmx/Assets/Script/NsTmx/Loader/ObjectLayerLoader.cs:206-224 | The record holds a count, then two integers per point. A null or empty polygon writes only the count 0. |
| PolygonCodec.LoadPolygon | NsTmx/Assets/Script/NsTmx/Loader/ObjectLayerLoader.cs:188-204 | A point count of 0 or less gives null and consumes only the count. A positive count that reads successfully always gives a non-null polygon, and a non-null polygon holds exactly the counted points, so there is at least one. |
| PolygonCodec.ParsePoint | NsTmx/Assets/Script/NsTmx/Loader/ObjectLayerLoader.cs:250-272 | A token without a comma yields no point. A token yields a point if and only if it has at least two comma fields and `int.TryParse` accepts the first and the second; the point's x and y are those two values. |
| PolygonCodec.PolygonRoundTrip | NsTmx/Assets/Script/NsTmx/Loader/ObjectLayerLoader.cs:188-224 | A non-empty polygon reads back with the same points in the same order. An empty polygon reads back as null. Reading stops at the end of the record. |
| PolygonCodec.PolygonResave | NsTmx/Assets/Script/NsTmx/Loader/ObjectLayerLoader.cs:206-214 | Saving the polygon that was read back writes the same tokens again. |
| PolygonCodec.BadCoordinateSkipped | NsTmx/Assets/Script/NsTmx/Loader/ObjectLayerLoader.cs:258-266 | A token whose first or second field is not an integer yields no point, whether it has exactly two fields or more. |
| PolygonCodec.ExtraFieldsIgnored | NsTmx/Assets/Script/NsTmx/Loader/ObjectLayerLoader.cs:254-266 | For any two comma-free first fields, fields after the second never change how the token parses. |
| PolygonCodec.ParsePointText | NsTmx/Assets/Script/NsTmx/Loader/ObjectLayerLoader.cs:254-271 | Every point written as `x,y` parses back to itself. |
| PolygonCodec.BadTokenDropped | NsTmx/Assets/Script/NsTmx/Loader/ObjectLayerLoader.cs:248-273 | A token that does not parse is dropped. The points of the tokens before and after it keep their order. |
| PolygonCodec.PolygonOfText | NsTmx/Assets/Script/NsTmx/Loader/ObjectLayerLoader.cs:240-275 | A null or empty text, or a text in which no space-separated token parses, gives null, and only those do. A non-null result is never empty. |
| PolygonCodec.PolygonOfNode | NsTmx/Assets/Script/NsTmx/Loader/ObjectLayerLoader.cs:228-242 | A null element or one without a `polygon` child gives null. Otherwise the result is the polygon of the first `polygon` child's `points` text. |
| PolygonCodec.LoadPolygonXml | NsTmx/Assets/Script/NsTmx/Loader/ObjectLayerLoader.cs:226-246 | The source's early returns, followed by the token loop, give exactly `PolygonOfNode`: the polygon of the first `polygon` child. |
| PolygonCodec.ParsePointTokens | NsTmx/Assets/Script/NsTmx/Loader/ObjectLayerLoader.cs:248-275 | The token loop, with lazy allocation, returns the points of the tokens that parse, in order. It returns null when no token parses. |
| PolygonCodec.PointsOfTexts | NsTmx/Assets/Script/NsTmx/Loader/ObjectLayerLoader.cs:248-273 | Tokens written as `x,y` all parse, to the points they were written from, in order. |
| PolygonCodec.PointsTextRoundTrip | NsTmx/Assets/Script/NsTmx/Loader/ObjectLayerLoader.cs:244-273 | A non-empty point list, written as space-separated `x,y` tokens, parses back to the same list. |
| PolygonCodec.LaterPolygonsIgnored | NsTmx/Assets/Script/NsTmx/Loader/ObjectLayerLoader.cs:230-236 | Only the first `polygon` child is consulted. Appending further children never changes the result. |
| PropertyCodec.ListedKeepsPromise | NsTmx/Assets/Script/NsTmx/Loader/ObjectLayerLoader.cs:133 | The count-prefixed name/value layout satisfies the round-trip promise that the object codec relies on, so that promise can be met. |
| DotNet.Split | NsTmx/Assets/Script/NsTmx/Loader/ObjectLayerLoader.cs:244 | Splitting on one character yields at least one piece. No piece contains the separator. Joining the pieces with the separator gives back the text. |
| DotNet.SplitJoin | NsTmx/Assets/Script/NsTmx/Loader/ObjectLayerLoader.cs:254 | Splitting undoes joining when no piece contains the separator. |
| DotNet.ParseIntText | NsTmx/Assets/Script/NsTmx/Loader/ObjectLayerLoader.cs:260-266 | `int.TryParse` reads back every `int` that `ToString` writes. |
| DotNet.TryParseInt32 | NsTmx/Assets/Script/NsTmx/Loader/ObjectLayerLoader.cs:81 | A null or empty string does not parse. A string of digits with a value within `int` parses to that value. |
| DotNet.ParseRejectsNonDigit | NsTmx/Assets/Script/NsTmx/Loader/ObjectLayerLoader.cs:81-82 | Text with a character that is neither a digit nor a leading sign does not parse. |
| DotNet.SignedForms | NsTmx/Assets/Script/NsTmx/Loader/ObjectLayerLoader.cs:81 | A leading `+` parses as the bare digits. A leading `-` gives the negated value when it is at least `int.MinValue`, and fails otherwise. A sign alone fails. |
| DotNet.ParseRejectsOverflow | NsTmx/Assets/Script/NsTmx/Loader/ObjectLayerLoader.cs:86-87 | Digit strings whose value lies outside `int` do not parse. |
| Scenarios.TriggersSaved | NsTmx/Assets/Script/NsTmx/Loader/ObjectLayerLoader.cs:38-58 | A one-group, one-object map is written as exactly 15 tokens, in the stated order. |
| Scenarios.TriggersRead | NsTmx/Assets/Script/NsTmx/Loader/ObjectLayerLoader.cs:14-36 | Reading those 15 tokens gives back exactly that one-group map. |
| Scenarios.ZeroGroupStream | NsTmx/Assets/Script/NsTmx/Loader/ObjectLayerLoader.cs:19-21 | A stream whose group count is 0 reads as null, not as an empty list. Only the count is consumed. |
| Scenarios.PointsExample | NsTmx/Assets/Script/NsTmx/Loader/ObjectLayerLoader.cs:244-273 | `"0,0 10,0 10,10"` gives the three points in order. |
| Scenarios.BadTokenExample | NsTmx/Assets/Script/NsTmx/Loader/ObjectLayerLoader.cs:248-273 | `"0,0 bad 10,10"` gives `[(0,0),(10,10)]`. |
| Scenarios.MarkupGroupsExample | NsTmx/Assets/Script/NsTmx/Loader/ObjectLayerLoader.cs:60-98 | Group elements with an empty or missing name are skipped. An unparsable height becomes 0 while the width is kept. |

## Left out

- `PropertysLoader` (called at ObjectLayerLoader.cs:113, 133 and 179) is not part of this model. The binary codec takes it as a parameter `PropCodec` and relies only on the promise `RoundTrips`: a saved property set reads back normalised, and resaving it writes the same tokens. `Listed` is one instance that keeps this promise; it is not the source's own layout. The markup property reader is likewise a parameter, `propsOf`.
- `FilePathMgr` byte layout: integer width on the wire, endianness and the string length prefix are hidden behind one token per primitive record. The primitive reader is assumed to throw on a short stream, and `Fail` stands for that exception. A byte stream carries no record kinds, so a token of the wrong kind where an integer or a string is expected has no counterpart in the source; the typed tokens force the model to give it an outcome, and `Fail` is that outcome.
- `stream.Length` is modelled as the number of tokens left to read. The two agree when reading starts at the beginning of the stream. A non-empty stream whose position is already at its end would throw in the source; the model returns null for it.
- `SaveToBinary` with a null stream: it writes nothing and there is nothing to model, so the model has no stream parameter there.
- `Vector2` and `Mathf.RoundToInt` (lines 199, 219-220, 271): points are pairs of `int`, and the conversion from `int` to `float` is not modelled. A `float` holds every integer only up to 2^24 in magnitude. In the source, the stream `[1, 16777217, 0]` therefore gives the point (16777216, 0), and `SavePolygon` then writes 16777216. `int.MaxValue` becomes 2^31, which `RoundToInt` cannot convert back. The round-trip lemmas below hold for the source only when every polygon coordinate is within ±2^24.
- PolygonCodec.PolygonRoundTrip: exact for every `int` coordinate in the model; in the source, only for coordinates within ±2^24 (the `float` conversion above).
- ObjectCodec.ObjectRoundTrip, ObjectCodec.ObjectRecordsRoundTrip, ObjectCodec.ObjectsRoundTrip: the same ±2^24 bound on the polygon coordinates of every object.
- GroupCodec.GroupRoundTrip, GroupCodec.GroupRecordsRoundTrip, GroupCodec.GroupsRoundTrip, GroupCodec.ResaveIdentical: the same ±2^24 bound on every polygon coordinate in the list.
- PolygonCodec.ParsePoint, PolygonCodec.PointsTextRoundTrip, PolygonCodec.ParsePointTokens: the markup reader also stores points as `float`, so a parsed coordinate beyond ±2^24 is rounded in the source but kept exact in the model.
- `int.TryParse`: modelled as an optional `+` or `-`, one or more ASCII digits, and the `int` range check. Surrounding whitespace and culture-specific signs are not modelled.
- `ObjectGroup.IsVaild` (line 140) is not part of this model. A group built from a non-empty name is taken to be valid, so its objects are always read.
- The `ObjectLayer` constructor is not part of this model. A missing `name` or `type` attribute, which the source passes on as `null`, is modelled as the empty string.
- XMLParser internals: `GetNodeList` is the tagged children in document order. `GetValue("@a")` is the attribute `a`. Node lists never hold null entries, so the `as XMLNode` null checks (lines 71-73, 148-150, 236-238) never fire.
- `TMXRenderer.cs` (mesh building, textures, Unity lifecycle) is outside the object-group codec.
- PolygonCodec.PolygonOfText: its contract states exactly when the result is null. Which points a non-null result holds, and in what order, is stated by `BadTokenDropped`, `PointsTextRoundTrip`, `ParsePointTokens` and the scenarios instead.
- DotNet.TryParseInt32: its contract states the unsigned-digits case only. The sign forms (`+`, `-`, a sign alone, the negative range) are stated by `SignedForms`, rejection of other characters by `ParseRejectsNonDigit`, unsigned overflow by `ParseRejectsOverflow`, and the canonical `ToString` form by `ParseIntText`.

=== FILE: dotnet.dfy ===
/**
  The .NET library behaviour the loader relies on: `string.IsNullOrEmpty`,
  `string.Split(char[])` with a single separator, and `int.TryParse`, together
  with the tolerant parse-or-zero fallback every numeric attribute goes through.
 */
module DotNet {
  import opened Wrappers
  import opened Model

  predicate IsNullOrEmpty(s: Option<string>)
  {
    s.None? || |s.value| == 0
  }

  /** Glues pieces back together with `sep` between neighbours; the inverse of `Split`. */
  function Join(pieces: seq<string>, sep: char): string
  {
    if |pieces| == 0 then ""
    else if |pieces| == 1 then pieces[0]
    else pieces[0] + [sep] + Join(pieces[1..], sep)
  }

  /**
    `s.Split(new char[]{sep})`: every separator ends a piece, so the result has
    one more piece than `s` has separators and keeps empty pieces.
   */
  function Split(s: string, sep: char): (r: seq<string>)
    ensures |r| >= 1
    ensures forall i :: 0 <= i < |r| ==> sep !in r[i]
    ensures Join(r, sep) == s
    decreases |s|
  {
    if |s| == 0 then [""]
    else
      var tail := Split(s[1..], sep);
      if s[0] == sep then
        assert Join([""] + tail, sep) == [sep] + Join(tail, sep) by {
          assert ([""] + tail)[1..] == tail;
        }
        [""] + tail
      else
        var r := [[s[0]] + tail[0]] + tail[1..];
        assert Join(r, sep) == [s[0]] + Join(tail, sep) by {
          assert r[1..] == tail[1..];
          if |tail| > 1 {
            assert Join(tail, sep) == tail[0] + [sep] + Join(tail[1..], sep);
          }
        }
        assert s == [s[0]] + s[1..];
        r
  }

  /** Splitting text that starts with a separator-free piece keeps that piece at the head of the first part. */
  lemma {:induction false} SplitPrefix(a: string, rest: string, sep: char)
    requires sep !in a
    ensures Split(a + rest, sep) == [a + Split(rest, sep)[0]] + Split(rest, sep)[1..]
    decreases |a|
  {
    if |a| > 0 {
      assert (a + rest)[0] == a[0];
      assert (a + rest)[1..] == a[1..] + rest;
      SplitPrefix(a[1..], rest, sep);
      var r := Split(rest, sep);
      var tail := Split(a[1..] + rest, sep);
      assert tail[0] == a[1..] + r[0] && tail[1..] == r[1..];
      assert a[0] != sep;
      assert Split(a + rest, sep) == [[a[0]] + tail[0]] + tail[1..];
      assert a == [a[0]] + a[1..];
      assert [a[0]] + tail[0] == a + r[0];
    } else {
      var r := Split(rest, sep);
      assert a + rest == rest;
      assert a + r[0] == r[0];
      assert r == [r[0]] + r[1..];
    }
  }

  /** `Split` undoes `Join` when no piece contains the separator. */
  lemma {:induction false} SplitJoin(pieces: seq<string>, sep: char)
    requires |pieces| >= 1
    requires forall i :: 0 <= i < |pieces| ==> sep !in pieces[i]
    ensures Split(Join(pieces, sep), sep) == pieces
    decreases |pieces|
  {
    if |pieces| == 1 {
      SplitPrefix(pieces[0], "", sep);
      assert pieces[0] + "" == pieces[0];
    } else {
      var tail := Join(pieces[1..], sep);
      SplitJoin(pieces[1..], sep);
      assert pieces[0] + [sep] + tail == pieces[0] + ([sep] + tail);
      SplitPrefix(pieces[0], [sep] + tail, sep);
      assert ([sep] + tail)[1..] == tail;
      var x := Split([sep] + tail, sep);
      assert x == [""] + pieces[1..];
      assert x[0] == "" && x[1..] == pieces[1..];
      assert pieces[0] + x[0] == pieces[0];
      assert Join(pieces, sep) == pieces[0] + ([sep] + tail);
      assert pieces == [pieces[0]] + pieces[1..];
    }
  }

  predicate IsDigit(c: char)
  {
    '0' <= c <= '9'
  }

  predicate AllDigits(s: string)
  {
    forall i :: 0 <= i < |s| ==> IsDigit(s[i])
  }

  /** The value of a decimal digit string, most significant digit first. */
  function DigitsValue(s: string): nat
    requires AllDigits(s)
    decreases |s|
  {
    if |s| == 0 then 0 else DigitsValue(s[..|s| - 1]) * 10 + (s[|s| - 1] as int - '0' as int)
  }

  /**
    `int.TryParse(s, out v)`: an optional `-` or `+` followed by one or more
    decimal digits, whose value lies in the range of `int`. A `null` string fails.
   */
  function TryParseInt32(s: Option<string>): (r: Option<int32>)
    ensures s.None? || |s.value| == 0 ==> r.None?
    ensures s.Some? && |s.value| > 0 && AllDigits(s.value) && DigitsValue(s.value) <= MaxInt32
            ==> r == Some(DigitsValue(s.value) as int32)
  {
    if s.None? then None
    else
      var t := s.value;
      var signed := |t| > 0 && (t[0] == '-' || t[0] == '+');
      var digits := if signed then t[1..] else t;
      if |digits| == 0 || !AllDigits(digits) then None
      else
        var v: int := if signed && t[0] == '-' then -(DigitsValue(digits) as int) else DigitsValue(digits);
        if -0x8000_0000 <= v <= MaxInt32 then Some(v as int32) else None
  }

  /** The loader's fallback for every numeric attribute: the parsed value, or 0 when parsing fails. */
  function ParseOrZero(s: Option<string>): (v: int32)
    ensures TryParseInt32(s).Some? ==> v == TryParseInt32(s).value
    ensures TryParseInt32(s).None? ==> v == 0
    ensures v != 0 ==> TryParseInt32(s) == Some(v)
  {
    match TryParseInt32(s)
    case Some(v) => v
    case None => 0
  }

  function DigitChar(d: nat): (c: char)
    requires d < 10
    ensures IsDigit(c)
  {
    ('0' as int + d) as char
  }

  /** Decimal text of a natural number without leading zeros. */
  function NatText(n: nat): (r: string)
    ensures |r| >= 1 && AllDigits(r)
  {
    if n < 10 then [DigitChar(n)] else NatText(n / 10) + [DigitChar(n % 10)]
  }

  /** The digits `NatText` writes have the value they were written from. */
  lemma {:induction false} NatTextValue(n: nat)
    ensures DigitsValue(NatText(n)) == n
  {
    var r := NatText(n);
    if n < 10 {
      assert r[..0] == [];
    } else {
      assert r[..|r| - 1] == NatText(n / 10);
      NatTextValue(n / 10);
    }
  }

  /** Decimal text is short: far below the length limit of a .NET string for any `int`. */
  lemma {:induction false} NatTextShort(n: nat)
    ensures |NatText(n)| <= 1 + n / 10
  {
    if n >= 10 {
      NatTextShort(n / 10);
      assert n / 10 / 10 <= n / 10 - 1;
    }
  }

  /** Decimal text of an `int`, as `ToString` writes it. */
  function IntText(n: int32): (r: string)
    ensures ',' !in r && ' ' !in r
    ensures |r| <= 0x1000_0000
  {
    NatTextShort(if n < 0 then -(n as int) else n as int);
    if n < 0 then "-" + NatText(-(n as int)) else NatText(n as int)
  }

  /** `int.TryParse` reads back every value `ToString` writes. */
  lemma ParseIntText(n: int32)
    ensures TryParseInt32(Some(IntText(n))) == Some(n)
  {
    var t := IntText(n);
    NatTextValue(if n < 0 then -(n as int) else n as int);
    if n < 0 {
      assert t[1..] == NatText(-(n as int));
    } else {
      assert IsDigit(t[0]);
    }
  }

  /** Text with a character that is neither a digit nor a leading sign never parses. */
  lemma ParseRejectsNonDigit(t: string, i: nat)
    requires i < |t| && !IsDigit(t[i])
    requires i > 0 || (t[0] != '-' && t[0] != '+')
    ensures TryParseInt32(Some(t)).None?
  {
    if |t| > 0 && (t[0] == '-' || t[0] == '+') {
      assert t[1..][i - 1] == t[i];
    }
  }

  /** Digit strings whose value exceeds the range of `int` do not parse. */
  lemma ParseRejectsOverflow(t: string)
    requires |t| > 0 && AllDigits(t) && DigitsValue(t) > MaxInt32
    ensures TryParseInt32(Some(t)).None?
  {
  }

  /**
    A leading `+` changes nothing; a leading `-` negates, and the negative
    range reaches one further than the positive one. A sign alone fails.
   */
  lemma SignedForms(d: string)
    requires |d| > 0 && AllDigits(d)
    ensures TryParseInt32(Some("+" + d)) == TryParseInt32(Some(d))
    ensures TryParseInt32(Some("-" + d))
            == if DigitsValue(d) <= 0x8000_0000 then Some((-(DigitsValue(d) as int)) as int32) else None
    ensures TryParseInt32(Some("+")).None? && TryParseInt32(Some("-")).None?
  {
    assert ("+" + d)[1..] == d;
    assert ("-" + d)[1..] == d;
    assert IsDigit(d[0]);
  }
}

=== FILE: group_codec.dfy ===
/**
  The object groups of a map, the top level of the object-layer loader:
  `LoadObjectGroup(Stream)` and `SaveToBinary` for the binary form, and
  `LoadObjectGroup(XMLNode)` for the markup form.
 */
module GroupCodec {
  import opened Wrappers
  import opened Model
  import opened Stream
  import opened Xml
  import opened DotNet
  import opened Seqs
  import opened PropertyCodec
  import opened ObjectCodec

  /** One group record: name, width, height, then the group's object block. */
  function SaveGroup(g: ObjectGroup, pc: PropCodec): seq<Token>
  {
    [S(g.name), I(g.width), I(g.height)] + SaveObjects(g.layers, pc)
  }

  function SaveGroupRecords(gs: seq<ObjectGroup>, pc: PropCodec): seq<Token>
  {
    if |gs| == 0 then [] else SaveGroup(gs[0], pc) + SaveGroupRecords(gs[1..], pc)
  }

  /**
    `SaveToBinary`: a `null` list is written as a single group count of 0 and
    nothing else; otherwise the group count and then each group record.
   */
  function SaveToBinary(list: Option<List32<ObjectGroup>>, pc: PropCodec): (r: seq<Token>)
    ensures list.None? ==> r == [I(0)]
    ensures |r| > 0 && r[0] == I(if list.None? then 0 else |list.value| as int32)
  {
    match list
    case None => [I(0)]
    case Some(gs) => [I(|gs| as int32)] + SaveGroupRecords(gs, pc)
  }

  /** A group is built from its name, width and height, and then its objects are read into it. */
  function LoadGroup(ts: seq<Token>, pc: PropCodec): (r: Read<ObjectGroup>)
    ensures r.Ok? ==> && |ts| >= 4
                      && ts[0] == S(r.value.name) && ts[1] == I(r.value.width) && ts[2] == I(r.value.height)
  {
    match ReadString(ts)
    case Fail => Fail
    case Ok(name, t1) =>
      match ReadInt(t1)
      case Fail => Fail
      case Ok(width, t2) =>
        match ReadInt(t2)
        case Fail => Fail
        case Ok(height, t3) =>
          match LoadObjects(t3, pc)
          case Fail => Fail
          case Ok(layers, t4) => Ok(ObjectGroup(name, width, height, layers), t4)
  }

  function LoadGroupRecords(ts: seq<Token>, n: nat, pc: PropCodec): (r: Read<seq<ObjectGroup>>)
    ensures r.Ok? ==> |r.value| == n
    decreases n
  {
    if n == 0 then Ok([], ts)
    else
      match LoadGroup(ts, pc)
      case Fail => Fail
      case Ok(g, t1) =>
        match LoadGroupRecords(t1, n - 1, pc)
        case Fail => Fail
        case Ok(gs, t2) => Ok([g] + gs, t2)
  }

  /**
    `LoadObjectGroup(Stream)`: a `null` or empty stream, or a group count of 0
    or less, gives `null`; otherwise exactly that many groups in stream order.
   */
  function LoadObjectGroup(stream: Option<seq<Token>>, pc: PropCodec): (r: Read<Option<List32<ObjectGroup>>>)
    ensures stream.None? || |stream.value| == 0 ==> r == Ok(None, [])
    ensures stream.Some? && |stream.value| > 0 && stream.value[0].I? && stream.value[0].n <= 0
            ==> r == Ok(None, stream.value[1..])
    ensures r.Ok? && r.value.Some?
            ==> stream.Some? && |stream.value| > 0 && stream.value[0].I?
                && 0 < |r.value.value| == stream.value[0].n as int
    ensures stream.Some? && |stream.value| > 0 && stream.value[0].I? && stream.value[0].n > 0 && r.Ok?
            ==> r.value.Some?
  {
    if stream.None? || |stream.value| <= 0 then Ok(None, [])
    else
      match ReadInt(stream.value)
      case Fail => Fail
      case Ok(groupCnt, rest) =>
        if groupCnt <= 0 then Ok(None, rest)
        else
          match LoadGroupRecords(rest, groupCnt as int, pc)
          case Fail => Fail
          case Ok(gs, r) => Ok(Some(gs), r)
  }

  lemma GroupRoundTrip(g: ObjectGroup, rest: seq<Token>, pc: PropCodec)
    requires RoundTrips(pc)
    ensures LoadGroup(SaveGroup(g, pc) + rest, pc) == Ok(NormGroup(g), rest)
  {
    var objs := SaveObjects(g.layers, pc) + rest;
    assert LoadObjects(objs, pc) == Ok(NormLayers(g.layers), rest) by {
      ObjectsRoundTrip(g.layers, rest, pc);
    }
    GroupHeader(g.name, g.width, g.height, objs, pc, NormLayers(g.layers), rest);
    assert SaveGroup(g, pc) + rest == [S(g.name), I(g.width), I(g.height)] + objs;
  }

  /** A group record is its header followed by an object block. */
  lemma GroupHeader(name: string, width: int32, height: int32, body: seq<Token>, pc: PropCodec,
                    ls: List32<ObjectLayer>, rest: seq<Token>)
    requires LoadObjects(body, pc) == Ok(ls, rest)
    ensures LoadGroup([S(name), I(width), I(height)] + body, pc) == Ok(ObjectGroup(name, width, height, ls), rest)
  {
    var ts := [S(name), I(width), I(height)] + body;
    assert ts[1..][1..][1..] == body;
  }

  lemma {:induction false} GroupRecordsRoundTrip(gs: List32<ObjectGroup>, rest: seq<Token>, pc: PropCodec)
    requires RoundTrips(pc)
    ensures LoadGroupRecords(SaveGroupRecords(gs, pc) + rest, |gs|, pc) == Ok(NormGroupSeq(gs), rest)
    decreases |gs|
  {
    if |gs| > 0 {
      var tail := SaveGroupRecords(gs[1..], pc) + rest;
      assert SaveGroupRecords(gs, pc) + rest == SaveGroup(gs[0], pc) + tail;
      GroupRoundTrip(gs[0], tail, pc);
      GroupRecordsRoundTrip(gs[1..], rest, pc);
    } else {
      assert SaveGroupRecords(gs, pc) + rest == rest;
    }
  }

  /**
    The binary round trip: whatever follows the saved groups in the stream,
    reading them back gives the same groups in the same order with the same
    names, sizes and objects, and leaves the following tokens unread. A `null`
    or empty list, and every empty polygon or property set, read back as `null`.
   */
  lemma GroupsRoundTrip(list: Option<List32<ObjectGroup>>, rest: seq<Token>, pc: PropCodec)
    requires RoundTrips(pc)
    ensures LoadObjectGroup(Some(SaveToBinary(list, pc) + rest), pc) == Ok(NormGroups(list), rest)
  {
    var ts := SaveToBinary(list, pc) + rest;
    if list.Some? && |list.value| > 0 {
      var records := SaveGroupRecords(list.value, pc) + rest;
      assert ts == [I(|list.value| as int32)] + records;
      assert ReadInt(ts) == Ok(|list.value| as int32, records);
      GroupRecordsRoundTrip(list.value, rest, pc);
    } else {
      assert ts[1..] == rest by {
        if list.Some? {
          assert SaveGroupRecords(list.value, pc) == [];
        }
      }
    }
  }

  lemma {:induction false} GroupRecordsResave(gs: List32<ObjectGroup>, pc: PropCodec)
    requires RoundTrips(pc)
    ensures SaveGroupRecords(NormGroupSeq(gs), pc) == SaveGroupRecords(gs, pc)
    decreases |gs|
  {
    if |gs| > 0 {
      GroupRecordsResave(gs[1..], pc);
      assert NormGroupSeq(gs)[1..] == NormGroupSeq(gs[1..]);
      ObjectsResave(gs[0].layers, pc);
    }
  }

  /**
    Saving what was read back writes exactly the tokens that were read:
    the absent/empty normalisation is invisible on the wire.
   */
  lemma ResaveIdentical(list: Option<List32<ObjectGroup>>, rest: seq<Token>, pc: PropCodec)
    requires RoundTrips(pc)
    ensures var r := LoadObjectGroup(Some(SaveToBinary(list, pc) + rest), pc);
      r.Ok? && SaveToBinary(r.value, pc) == SaveToBinary(list, pc)
  {
    GroupsRoundTrip(list, rest, pc);
    if list.Some? && |list.value| > 0 {
      GroupRecordsResave(list.value, pc);
    }
  }

  // ---------------------------------------------------------------------
  // The markup form

  /** Only `objectgroup` elements with a non-empty `name` attribute become groups. */
  predicate Named(n: Node)
  {
    !IsNullOrEmpty(GetValue(n, "name"))
  }

  /** A named group element: width and height fall back to 0 each on their own; objects from its `object` children. */
  function GroupFromNode(n: Node, propsOf: Node -> Props): (r: ObjectGroup)
    requires Named(n)
    ensures Some(r.name) == GetValue(n, "name") && |r.name| > 0
    ensures TryParseInt32(GetValue(n, "width")).None? ==> r.width == 0
    ensures TryParseInt32(GetValue(n, "width")).Some? ==> r.width == TryParseInt32(GetValue(n, "width")).value
    ensures TryParseInt32(GetValue(n, "height")).None? ==> r.height == 0
    ensures TryParseInt32(GetValue(n, "height")).Some? ==> r.height == TryParseInt32(GetValue(n, "height")).value
    ensures r.layers == ObjectsFromXml(n, propsOf)
  {
    ObjectGroup(GetValue(n, "name").value, ParseOrZero(GetValue(n, "width")), ParseOrZero(GetValue(n, "height")),
                ObjectsFromXml(n, propsOf))
  }

  /** What one `objectgroup` element contributes: its group when it is named, nothing otherwise. */
  function MaybeGroup(propsOf: Node -> Props): Node -> Option<ObjectGroup>
  {
    n => if Named(n) then Some(GroupFromNode(n, propsOf)) else None
  }

  /** The groups of the named elements among `nodes`, in document order; unnamed elements are skipped. */
  function GroupsOf(nodes: seq<Node>, propsOf: Node -> Props): (r: seq<ObjectGroup>)
    ensures |r| <= |nodes|
  {
    FilterMap(MaybeGroup(propsOf), nodes)
  }

  /** Every group kept has a non-empty name, and none is kept exactly when no element is named. */
  lemma GroupsOfNamed(nodes: seq<Node>, propsOf: Node -> Props)
    ensures forall k :: 0 <= k < |GroupsOf(nodes, propsOf)| ==> |GroupsOf(nodes, propsOf)[k].name| > 0
    ensures |GroupsOf(nodes, propsOf)| == 0 <==> forall i :: 0 <= i < |nodes| ==> !Named(nodes[i])
  {
    var f := MaybeGroup(propsOf);
    FilterMapEmpty(f, nodes);
    assert forall i :: 0 <= i < |nodes| ==> (f(nodes[i]).None? <==> !Named(nodes[i]));
    forall k | 0 <= k < |GroupsOf(nodes, propsOf)|
      ensures |GroupsOf(nodes, propsOf)[k].name| > 0
    {
      FilterMapFrom(f, nodes, k);
    }
  }

  /**
    `LoadObjectGroup(XMLNode)`: `null` when there is no element, no
    `objectgroup` child, or no named one; otherwise the groups of the named
    children in document order.
   */
  function GroupsFromXml(parent: Option<Node>, propsOf: Node -> Props): (r: Option<List32<ObjectGroup>>)
    ensures r.Some? ==> 0 < |r.value| && forall i :: 0 <= i < |r.value| ==> |r.value[i].name| > 0
    ensures r.None? <==> parent.None? || var nodes := GetNodeList(parent.value, "objectgroup");
                                          forall i :: 0 <= i < |nodes| ==> !Named(nodes[i])
  {
    if parent.None? then None
    else
      var nodes := GetNodeList(parent.value, "objectgroup");
      GroupsOfNamed(nodes, propsOf);
      Allocated(GroupsOf(nodes, propsOf))
  }

  /** `LoadObjectGroup(XMLNode)`: the early returns, then the loop over the `objectgroup` children. */
  method LoadObjectGroupXml(parent: Option<Node>, propsOf: Node -> Props) returns (ret: Option<List32<ObjectGroup>>)
    ensures ret == GroupsFromXml(parent, propsOf)
  {
    if parent.None? {
      return None;
    }
    var objectNodeList := GetNodeList(parent.value, "objectgroup");
    if |objectNodeList| <= 0 {
      return None;
    }
    ret := LoadGroupNodes(objectNodeList, propsOf);
  }

  /**
    The loop of `LoadObjectGroup(XMLNode)`: the result list is allocated when
    the first named group is met, so when none is named the result stays `null`.
   */
  method LoadGroupNodes(objectNodeList: List32<Node>, propsOf: Node -> Props) returns (ret: Option<List32<ObjectGroup>>)
    ensures ret == Allocated(GroupsOf(objectNodeList, propsOf))
  {
    ret := None;
    for i := 0 to |objectNodeList|
      invariant ret == Allocated(GroupsOf(objectNodeList[..i], propsOf))
    {
      var node := objectNodeList[i];
      LoopStep(objectNodeList, i, propsOf, ret);
      if !Named(node) {
        continue;
      }
      var gs := if ret.None? then [] else ret.value;
      ret := Some(gs + [GroupFromNode(node, propsOf)]);
    }
    assert objectNodeList[..|objectNodeList|] == objectNodeList;
  }

  lemma LoopStep(nodes: List32<Node>, i: nat, propsOf: Node -> Props, ret: Option<List32<ObjectGroup>>)
    requires i < |nodes|
    requires ret == Allocated(GroupsOf(nodes[..i], propsOf))
    ensures Allocated(GroupsOf(nodes[..i + 1], propsOf))
         == if Named(nodes[i]) then Some((if ret.None? then [] else ret.value) + [GroupFromNode(nodes[i], propsOf)])
            else ret
  {
    assert nodes[..i + 1] == nodes[..i] + [nodes[i]];
    FilterMapSnoc(MaybeGroup(propsOf), nodes[..i], nodes[i]);
  }

  /** An element without a usable name is dropped without disturbing its siblings. */
  lemma NamelessGroupSkipped(a: seq<Node>, bad: Node, b: seq<Node>, propsOf: Node -> Props)
    requires !Named(bad)
    ensures GroupsOf(a + [bad] + b, propsOf) == GroupsOf(a, propsOf) + GroupsOf(b, propsOf)
  {
    FilterMapAppend(MaybeGroup(propsOf), a + [bad], b);
    FilterMapSnoc(MaybeGroup(propsOf), a, bad);
  }

  /**
    A named group element whose width (or height) does not parse keeps its
    name, its objects and the other dimension, with that dimension 0.
   */
  lemma GroupDimensionDefaults(n: Node, attr: string, text: NetString, propsOf: Node -> Props)
    requires Named(n)
    requires attr == "width" || attr == "height"
    requires TryParseInt32(Some(text)).None?
    ensures var n' := n.(attrs := n.attrs[attr := text]);
      Named(n') &&
      var before, after := GroupFromNode(n, propsOf), GroupFromNode(n', propsOf);
      && (if attr == "width" then after.width == 0 && after.height == before.height
          else after.height == 0 && after.width == before.width)
      && after.name == before.name && after.layers == before.layers
  {
    var n' := n.(attrs := n.attrs[attr := text]);
    assert GetValue(n', "name") == GetValue(n, "name");
  }
}

=== FILE: model.dfy ===
/**
  The in-memory object model the loader fills: object groups, the objects
  (object layers) inside them, their property sets and polygon outlines.
  Absent (`null`) and present-but-empty containers are kept apart with `Option`.
 */
module Model {
  import opened Wrappers

  /** C#'s `int`: every count and coordinate the loader reads or writes. */
  newtype int32 = x: int | -0x8000_0000 <= x < 0x8000_0000

  const MaxInt32: int := 0x7fff_ffff

  /** A C# list: its `Count` is an `int`, so it never holds more than `MaxInt32` items. */
  type List32<T> = s: seq<T> | |s| <= MaxInt32 witness []

  /** A polygon vertex. The source keeps a float `Vector2`, but only ever stores whole numbers in it. */
  datatype Point = Point(x: int32, y: int32)

  /** A polygon outline; `None` is an object without a polygon. */
  type Polygon = Option<List32<Point>>

  datatype Property = Property(name: string, value: string)

  /** A property set in insertion order; `None` is an object without properties. */
  type Props = Option<List32<Property>>

  /** One placed object. `kind` is the source's free-form `Type` tag. */
  datatype ObjectLayer = ObjectLayer(
    name: string,
    kind: string,
    x: int32,
    y: int32,
    width: int32,
    height: int32,
    props: Props,
    polygon: Polygon)

  /** A named object group with its nominal size and its objects in order. */
  datatype ObjectGroup = ObjectGroup(name: string, width: int32, height: int32, layers: List32<ObjectLayer>)

  /** A list the loader allocates lazily: `null` until its first element is added. */
  function Allocated<T>(s: List32<T>): Option<List32<T>>
  {
    if |s| == 0 then None else Some(s)
  }

  /**
    The binary form writes a count of 0 for both `null` and an empty list, so
    both read back as `null`; this is what a round trip leaves of a polygon or
    a property set.
   */
  function Norm<T>(p: Option<List32<T>>): Option<List32<T>>
  {
    if p.Some? then Allocated(p.value) else None
  }

  /** What one binary round trip leaves of an object. */
  function NormLayer(o: ObjectLayer): ObjectLayer
  {
    o.(props := Norm(o.props), polygon := Norm(o.polygon))
  }

  function NormLayers(ls: List32<ObjectLayer>): (r: List32<ObjectLayer>)
    ensures |r| == |ls|
  {
    if |ls| == 0 then [] else [NormLayer(ls[0])] + NormLayers(ls[1..])
  }

  function NormGroup(g: ObjectGroup): ObjectGroup
  {
    g.(layers := NormLayers(g.layers))
  }

  function NormGroupSeq(gs: List32<ObjectGroup>): (r: List32<ObjectGroup>)
    ensures |r| == |gs|
  {
    if |gs| == 0 then [] else [NormGroup(gs[0])] + NormGroupSeq(gs[1..])
  }

  /** What one binary round trip leaves of a group list. */
  function NormGroups(list: Option<List32<ObjectGroup>>): Option<List32<ObjectGroup>>
  {
    if list.None? || |list.value| == 0 then None else Some(NormGroupSeq(list.value))
  }
}

=== FILE: object_codec.dfy ===
/**
  One object group's objects: the binary object block (`SaveObject` and
  `LoadObject(Stream, …)`) and the markup `object` elements
  (`LoadObject(XMLNode, …)`).
 */
module ObjectCodec {
  import opened Wrappers
  import opened Model
  import opened Stream
  import opened Xml
  import opened DotNet
  import opened PolygonCodec
  import opened PropertyCodec

  /** One object record: name, type, x, y, width, height, then its properties, then its polygon. */
  function SaveObject(o: ObjectLayer, pc: PropCodec): (r: seq<Token>)
    ensures |r| == 6 + |pc.save(o.props)| + 1 + 2 * PointCount(o.polygon)
    ensures r[0] == S(o.name) && r[1] == S(o.kind)
    ensures r[2] == I(o.x) && r[3] == I(o.y) && r[4] == I(o.width) && r[5] == I(o.height)
  {
    [S(o.name), S(o.kind), I(o.x), I(o.y), I(o.width), I(o.height)] + pc.save(o.props) + SavePolygon(o.polygon)
  }

  function SaveObjectRecords(ls: seq<ObjectLayer>, pc: PropCodec): seq<Token>
  {
    if |ls| == 0 then [] else SaveObject(ls[0], pc) + SaveObjectRecords(ls[1..], pc)
  }

  /** The object block: the object count, then that many object records. */
  function SaveObjects(ls: List32<ObjectLayer>, pc: PropCodec): (r: seq<Token>)
    ensures |r| > 0 && r[0] == I(|ls| as int32)
    ensures |ls| == 0 ==> r == [I(0)]
  {
    [I(|ls| as int32)] + SaveObjectRecords(ls, pc)
  }

  /**
    The six scalar fields of an object record, in wire order; the object is
    built from them before its properties and polygon are read.
   */
  function LoadScalars(ts: seq<Token>): Read<ObjectLayer>
  {
    match ReadString(ts)
    case Fail => Fail
    case Ok(name, t1) =>
      match ReadString(t1)
      case Fail => Fail
      case Ok(kind, t2) =>
        match ReadInt(t2)
        case Fail => Fail
        case Ok(x, t3) =>
          match ReadInt(t3)
          case Fail => Fail
          case Ok(y, t4) =>
            match ReadInt(t4)
            case Fail => Fail
            case Ok(width, t5) =>
              match ReadInt(t5)
              case Fail => Fail
              case Ok(height, t6) => Ok(ObjectLayer(name, kind, x, y, width, height, None, None), t6)
  }

  /**
    `LoadObject(Stream, …)`'s loop body: the six scalar fields, then the
    properties, then the polygon.
   */
  function LoadObject(ts: seq<Token>, pc: PropCodec): (r: Read<ObjectLayer>)
    ensures r.Ok? ==> && |ts| >= 6
                      && ts[0] == S(r.value.name) && ts[1] == S(r.value.kind)
                      && ts[2] == I(r.value.x) && ts[3] == I(r.value.y)
                      && ts[4] == I(r.value.width) && ts[5] == I(r.value.height)
  {
    match LoadScalars(ts)
    case Fail => Fail
    case Ok(layer, t1) =>
      match pc.load(t1)
      case Fail => Fail
      case Ok(props, t2) =>
        match LoadPolygon(t2)
        case Fail => Fail
        case Ok(poly, t3) => Ok(layer.(props := props, polygon := poly), t3)
  }

  function LoadObjectRecords(ts: seq<Token>, n: nat, pc: PropCodec): (r: Read<seq<ObjectLayer>>)
    ensures r.Ok? ==> |r.value| == n
    decreases n
  {
    if n == 0 then Ok([], ts)
    else
      match LoadObject(ts, pc)
      case Fail => Fail
      case Ok(o, t1) =>
        match LoadObjectRecords(t1, n - 1, pc)
        case Fail => Fail
        case Ok(os, t2) => Ok([o] + os, t2)
  }

  /**
    Reads the object count and then that many objects; a count of 0 or less
    yields no objects and consumes nothing after the count.
   */
  function LoadObjects(ts: seq<Token>, pc: PropCodec): (r: Read<List32<ObjectLayer>>)
    ensures |ts| > 0 && ts[0].I? && ts[0].n <= 0 ==> r == Ok([], ts[1..])
    ensures r.Ok? ==> |ts| > 0 && ts[0].I? && |r.value| == (if ts[0].n <= 0 then 0 else ts[0].n as int)
  {
    match ReadInt(ts)
    case Fail => Fail
    case Ok(cnt, rest) =>
      if cnt <= 0 then Ok([], rest)
      else
        match LoadObjectRecords(rest, cnt as int, pc)
        case Fail => Fail
        case Ok(os, r) => Ok(os, r)
  }

  lemma ScalarsRoundTrip(o: ObjectLayer, tail: seq<Token>)
    ensures LoadScalars([S(o.name), S(o.kind), I(o.x), I(o.y), I(o.width), I(o.height)] + tail)
         == Ok(o.(props := None, polygon := None), tail)
  {
    var ts := [S(o.name), S(o.kind), I(o.x), I(o.y), I(o.width), I(o.height)] + tail;
    assert ts[1..][1..][1..][1..][1..][1..] == tail;
  }

  /**
    An object record reads back field by field in the order it was written:
    the six scalar fields unchanged, then the properties and the polygon as
    their codecs return them, stopping exactly at the end of the record.
   */
  lemma ObjectRoundTrip(o: ObjectLayer, rest: seq<Token>, pc: PropCodec)
    requires RoundTrips(pc)
    ensures LoadObject(SaveObject(o, pc) + rest, pc) == Ok(NormLayer(o), rest)
  {
    var head := [S(o.name), S(o.kind), I(o.x), I(o.y), I(o.width), I(o.height)];
    var polyRest := SavePolygon(o.polygon) + rest;
    var tail := pc.save(o.props) + polyRest;
    assert SaveObject(o, pc) + rest == head + tail;
    ScalarsRoundTrip(o, tail);
    assert pc.load(tail) == Ok(Norm(o.props), polyRest);
    PolygonRoundTrip(o.polygon, rest);
  }

  lemma {:induction false} ObjectRecordsRoundTrip(ls: List32<ObjectLayer>, rest: seq<Token>, pc: PropCodec)
    requires RoundTrips(pc)
    ensures LoadObjectRecords(SaveObjectRecords(ls, pc) + rest, |ls|, pc) == Ok(NormLayers(ls), rest)
    decreases |ls|
  {
    if |ls| > 0 {
      var tail := SaveObjectRecords(ls[1..], pc) + rest;
      var ts := SaveObjectRecords(ls, pc) + rest;
      assert ts == SaveObject(ls[0], pc) + tail;
      assert LoadObject(ts, pc) == Ok(NormLayer(ls[0]), tail) by {
        ObjectRoundTrip(ls[0], tail, pc);
      }
      assert LoadObjectRecords(tail, |ls| - 1, pc) == Ok(NormLayers(ls[1..]), rest) by {
        ObjectRecordsRoundTrip(ls[1..], rest, pc);
      }
    } else {
      assert SaveObjectRecords(ls, pc) + rest == rest;
    }
  }

  /** An object block reads back as the same objects in the same order, up to the absent/empty normalisation. */
  lemma ObjectsRoundTrip(ls: List32<ObjectLayer>, rest: seq<Token>, pc: PropCodec)
    requires RoundTrips(pc)
    ensures LoadObjects(SaveObjects(ls, pc) + rest, pc) == Ok(NormLayers(ls), rest)
  {
    var ts := SaveObjects(ls, pc) + rest;
    var records := SaveObjectRecords(ls, pc) + rest;
    assert ts == [I(|ls| as int32)] + records;
    assert ReadInt(ts) == Ok(|ls| as int32, records);
    if |ls| == 0 {
      assert records == rest;
    } else {
      ObjectRecordsRoundTrip(ls, rest, pc);
    }
  }

  lemma {:induction false} ObjectRecordsResave(ls: List32<ObjectLayer>, pc: PropCodec)
    requires RoundTrips(pc)
    ensures SaveObjectRecords(NormLayers(ls), pc) == SaveObjectRecords(ls, pc)
    decreases |ls|
  {
    if |ls| > 0 {
      ObjectRecordsResave(ls[1..], pc);
      assert NormLayers(ls)[1..] == NormLayers(ls[1..]);
      assert pc.save(Norm(ls[0].props)) == pc.save(ls[0].props);
      PolygonResave(ls[0].polygon);
    }
  }

  /** Saving the objects that were read back writes the same tokens again. */
  lemma ObjectsResave(ls: List32<ObjectLayer>, pc: PropCodec)
    requires RoundTrips(pc)
    ensures SaveObjects(NormLayers(ls), pc) == SaveObjects(ls, pc)
  {
    ObjectRecordsResave(ls, pc);
  }

  // ---------------------------------------------------------------------
  // The markup form

  /** An optional text attribute: its text, or the empty string when it is missing. */
  function TextOrEmpty(s: Option<NetString>): string
  {
    if s.None? then "" else s.value
  }

  /**
    One `object` element. Every numeric attribute falls back to 0 on its own
    when it is missing or does not parse; the properties come from the
    property reader and the polygon from the element's first `polygon` child.
   */
  function ObjectFromNode(n: Node, propsOf: Node -> Props): (r: ObjectLayer)
    ensures GetValue(n, "name").Some? ==> r.name == GetValue(n, "name").value
    ensures GetValue(n, "type").Some? ==> r.kind == GetValue(n, "type").value
    ensures forall a :: IsNumericAttr(a) && TryParseInt32(GetValue(n, a)).None? ==> Field(r, a) == 0
    ensures forall a :: IsNumericAttr(a) && TryParseInt32(GetValue(n, a)).Some?
                        ==> Field(r, a) == TryParseInt32(GetValue(n, a)).value
    ensures r.props == propsOf(n) && r.polygon == PolygonOfNode(Some(n))
  {
    ObjectLayer(
      TextOrEmpty(GetValue(n, "name")),
      TextOrEmpty(GetValue(n, "type")),
      ParseOrZero(GetValue(n, "x")),
      ParseOrZero(GetValue(n, "y")),
      ParseOrZero(GetValue(n, "width")),
      ParseOrZero(GetValue(n, "height")),
      propsOf(n),
      PolygonOfNode(Some(n)))
  }

  /** One object per element, in document order; none are dropped. */
  function ObjectsFromNodes(nodes: seq<Node>, propsOf: Node -> Props): (r: seq<ObjectLayer>)
    ensures |r| == |nodes|
    ensures forall i :: 0 <= i < |nodes| ==> r[i] == ObjectFromNode(nodes[i], propsOf)
  {
    if |nodes| == 0 then [] else [ObjectFromNode(nodes[0], propsOf)] + ObjectsFromNodes(nodes[1..], propsOf)
  }

  /** The objects of a group element: one per `object` child, in document order. */
  function ObjectsFromXml(parent: Node, propsOf: Node -> Props): (r: List32<ObjectLayer>)
    ensures var nodes := GetNodeList(parent, "object");
      |r| == |nodes| && forall i :: 0 <= i < |nodes| ==> r[i] == ObjectFromNode(nodes[i], propsOf)
  {
    ObjectsFromNodes(GetNodeList(parent, "object"), propsOf)
  }

  /** The numeric field an attribute name fills. */
  function Field(o: ObjectLayer, attr: string): int32
  {
    match attr
    case "x" => o.x
    case "y" => o.y
    case "width" => o.width
    case "height" => o.height
    case _ => 0
  }

  predicate IsNumericAttr(attr: string)
  {
    attr == "x" || attr == "y" || attr == "width" || attr == "height"
  }

  /**
    Per-attribute defaulting: giving one numeric attribute text that does not
    parse sets that field to 0 and leaves the name, type, polygon and every
    other numeric field as they were.
   */
  lemma UnparsableAttrDefaults(n: Node, attr: string, text: NetString, propsOf: Node -> Props)
    requires IsNumericAttr(attr)
    requires TryParseInt32(Some(text)).None?
    ensures var before, after := ObjectFromNode(n, propsOf), ObjectFromNode(n.(attrs := n.attrs[attr := text]), propsOf);
      && Field(after, attr) == 0
      && (forall b :: IsNumericAttr(b) && b != attr ==> Field(after, b) == Field(before, b))
      && after.name == before.name && after.kind == before.kind && after.polygon == before.polygon
  {
    var n' := n.(attrs := n.attrs[attr := text]);
    var before, after := ObjectFromNode(n, propsOf), ObjectFromNode(n', propsOf);
    assert GetValue(n', attr) == Some(text);
    forall b | IsNumericAttr(b) && b != attr
      ensures Field(after, b) == Field(before, b)
    {
      assert GetValue(n', b) == GetValue(n, b);
    }
    assert GetValue(n', "name") == GetValue(n, "name") && GetValue(n', "type") == GetValue(n, "type");
    assert n'.children == n.children;
  }

  /** A bare `object` element still yields an object: empty name and type, all numeric fields 0. */
  lemma BareObjectDefaults(n: Node, propsOf: Node -> Props)
    requires n.attrs == map[]
    ensures var o := ObjectFromNode(n, propsOf);
      o.name == "" && o.kind == "" && o.x == 0 && o.y == 0 && o.width == 0 && o.height == 0
  {
  }

  /** A reference writer for the markup form: the object's six scalar fields as attributes. */
  function ObjectNode(o: ObjectLayer): Node
    requires |o.name| <= 0x3FFF_FFDF && |o.kind| <= 0x3FFF_FFDF
  {
    Node("object", map["name" := o.name, "type" := o.kind, "x" := IntText(o.x), "y" := IntText(o.y),
                        "width" := IntText(o.width), "height" := IntText(o.height)], [])
  }

  /** The markup reader recovers all six scalar fields the reference writer put into the attributes. */
  lemma ObjectNodeRoundTrip(o: ObjectLayer, propsOf: Node -> Props)
    requires |o.name| <= 0x3FFF_FFDF && |o.kind| <= 0x3FFF_FFDF
    ensures var r := ObjectFromNode(ObjectNode(o), propsOf);
      && r.name == o.name && r.kind == o.kind
      && r.x == o.x && r.y == o.y && r.width == o.width && r.height == o.height
      && r.polygon.None?
  {
    var n := ObjectNode(o);
    assert GetValue(n, "name") == Some(o.name);
    assert GetValue(n, "type") == Some(o.kind);
    assert GetValue(n, "x") == Some(IntText(o.x));
    assert GetValue(n, "y") == Some(IntText(o.y));
    assert GetValue(n, "width") == Some(IntText(o.width));
    assert GetValue(n, "height") == Some(IntText(o.height));
    ParseIntText(o.x);
    ParseIntText(o.y);
    ParseIntText(o.width);
    ParseIntText(o.height);
    assert GetNodeList(n, "polygon") == [];
  }
}

=== FILE: polygon_codec.dfy ===
/**
  Polygon outlines: the binary point list (`LoadPolygon(Stream)` and
  `SavePolygon`) and the markup `points` attribute (`LoadPolygon(XMLNode)`).
 */
module PolygonCodec {
  import opened Wrappers
  import opened Model
  import opened Stream
  import opened Xml
  import opened DotNet
  import opened Seqs

  /** The number of points a polygon holds; an absent polygon holds none. */
  function PointCount(poly: Polygon): nat
  {
    if poly.None? then 0 else |poly.value|
  }

  function SavePoints(ps: seq<Point>): (r: seq<Token>)
    ensures |r| == 2 * |ps|
  {
    if |ps| == 0 then [] else [I(ps[0].x), I(ps[0].y)] + SavePoints(ps[1..])
  }

  /** The binary polygon: a point count (0 when absent), then x and y of each point. */
  function SavePolygon(poly: Polygon): (r: seq<Token>)
    ensures |r| == 1 + 2 * PointCount(poly)
    ensures r[0] == I(PointCount(poly) as int32)
    ensures PointCount(poly) == 0 ==> r == [I(0)]
  {
    match poly
    case None => [I(0)]
    case Some(ps) => [I(|ps| as int32)] + SavePoints(ps)
  }

  /** Reads `n` points, each as x then y. */
  function LoadPoints(ts: seq<Token>, n: nat): (r: Read<seq<Point>>)
    ensures r.Ok? ==> |r.value| == n && |r.rest| == |ts| - 2 * n
    decreases n
  {
    if n == 0 then Ok([], ts)
    else
      match ReadInt(ts)
      case Fail => Fail
      case Ok(x, r1) =>
        match ReadInt(r1)
        case Fail => Fail
        case Ok(y, r2) =>
          match LoadPoints(r2, n - 1)
          case Fail => Fail
          case Ok(ps, r3) => Ok([Point(x, y)] + ps, r3)
  }

  /**
    Reads a point count; a count of 0 or less is an absent polygon, otherwise
    exactly that many points follow.
   */
  function LoadPolygon(ts: seq<Token>): (r: Read<Polygon>)
    ensures |ts| > 0 && ts[0].I? && ts[0].n <= 0 ==> r == Ok(None, ts[1..])
    ensures r.Ok? && r.value.Some? ==> |ts| > 0 && ts[0].I? && 0 < |r.value.value| == ts[0].n as int
    ensures |ts| > 0 && ts[0].I? && ts[0].n > 0 && r.Ok? ==> r.value.Some?
  {
    match ReadInt(ts)
    case Fail => Fail
    case Ok(cnt, rest) =>
      if cnt <= 0 then Ok(None, rest)
      else
        match LoadPoints(rest, cnt as int)
        case Fail => Fail
        case Ok(ps, r) => Ok(Some(ps), r)
  }

  lemma {:induction false} PointsRoundTrip(ps: seq<Point>, rest: seq<Token>)
    ensures LoadPoints(SavePoints(ps) + rest, |ps|) == Ok(ps, rest)
    decreases |ps|
  {
    if |ps| > 0 {
      var ts := SavePoints(ps) + rest;
      assert ts == [I(ps[0].x), I(ps[0].y)] + (SavePoints(ps[1..]) + rest);
      assert ts[2..] == SavePoints(ps[1..]) + rest;
      PointsRoundTrip(ps[1..], rest);
      assert ps == [ps[0]] + ps[1..];
    } else {
      assert SavePoints(ps) + rest == rest;
    }
  }

  /**
    Reading back a saved polygon gives the same points in the same order and
    stops exactly at the end of the record; an empty polygon reads back absent.
   */
  lemma PolygonRoundTrip(poly: Polygon, rest: seq<Token>)
    ensures LoadPolygon(SavePolygon(poly) + rest) == Ok(Norm(poly), rest)
  {
    var ts := SavePolygon(poly) + rest;
    if poly.Some? && |poly.value| > 0 {
      var ps := poly.value;
      assert ts == [I(|ps| as int32)] + (SavePoints(ps) + rest);
      assert ts[1..] == SavePoints(ps) + rest;
      PointsRoundTrip(ps, rest);
    } else {
      assert ts[1..] == rest;
    }
  }

  /** Saving what was read back writes the same tokens again. */
  lemma PolygonResave(poly: Polygon)
    ensures SavePolygon(Norm(poly)) == SavePolygon(poly)
  {
  }

  // ---------------------------------------------------------------------
  // The markup form: points="x0,y0 x1,y1 ..."

  /**
    One space-separated token: skipped (`None`) when it is empty, has fewer
    than two comma-separated fields, or its first or second field is not an
    integer; fields after the second are ignored.
   */
  function ParsePoint(tok: string): (r: Option<Point>)
    ensures ',' !in tok ==> r.None?
    ensures r.Some? ==> var fields := Split(tok, ',');
      && |fields| >= 2
      && TryParseInt32(Some(fields[0])) == Some(r.value.x)
      && TryParseInt32(Some(fields[1])) == Some(r.value.y)
    ensures var fields := Split(tok, ',');
      |fields| >= 2 && TryParseInt32(Some(fields[0])).Some? && TryParseInt32(Some(fields[1])).Some?
      ==> r.Some?
  {
    if |tok| == 0 then None
    else
      var fields := Split(tok, ',');
      if |fields| < 2 then None
      else
        assert ',' in tok by {
          assert tok == fields[0] + [','] + Join(fields[1..], ',');
          assert tok[|fields[0]|] == ',';
        }
        match (TryParseInt32(Some(fields[0])), TryParseInt32(Some(fields[1])))
        case (Some(x), Some(y)) => Some(Point(x, y))
        case _ => None
  }

  /**
    A token whose first or second field is not an integer is skipped, whether
    it has exactly two fields or more.
   */
  lemma BadCoordinateSkipped(a: string, b: string, more: string)
    requires ',' !in a && ',' !in b
    requires TryParseInt32(Some(a)).None? || TryParseInt32(Some(b)).None?
    ensures ParsePoint(a + "," + b).None?
    ensures ParsePoint(a + "," + b + "," + more).None?
  {
    TwoFields(a, b);
    ExtraFieldsIgnored(a, b, more);
  }

  /** Two comma-free fields joined by a comma split back into those two fields. */
  lemma TwoFields(a: string, b: string)
    requires ',' !in a && ',' !in b
    ensures Split(a + "," + b, ',') == [a, b]
  {
    assert Join([a, b], ',') == a + "," + b by {
      assert [a, b][1..] == [b];
    }
    SplitJoin([a, b], ',');
  }

  /** Text that begins with a separator splits into an empty first piece and the split of the remainder. */
  lemma SplitAfterSep(x: string, sep: char)
    ensures Split([sep] + x, sep) == [""] + Split(x, sep)
  {
    assert ([sep] + x)[1..] == x;
  }

  /** Fields after the second never change how a token parses. */
  lemma ExtraFieldsIgnored(a: string, b: string, more: string)
    requires ',' !in a && ',' !in b
    ensures ParsePoint(a + "," + b + "," + more) == ParsePoint(a + "," + b)
  {
    var r1 := b + ([','] + more);
    var tok := a + "," + b + "," + more;
    assert tok == a + ([','] + r1);
    SplitPrefix(a, [','] + r1, ',');
    SplitAfterSep(r1, ',');
    SplitPrefix(b, [','] + more, ',');
    SplitAfterSep(more, ',');
    assert a + "" == a && b + "" == b;
    var fields := Split(tok, ',');
    assert fields[0] == a && fields[1] == b && |fields| >= 2;
    TwoFields(a, b);
  }

  /** The points of the tokens that parse, in token order. */
  function PointsOf(toks: seq<string>): (r: seq<Point>)
    ensures |r| <= |toks|
  {
    FilterMap(ParsePoint, toks)
  }

  /** A token that does not parse is dropped and every other token keeps its point and its place. */
  lemma BadTokenDropped(a: seq<string>, bad: string, b: seq<string>)
    requires ParsePoint(bad).None?
    ensures PointsOf(a + [bad] + b) == PointsOf(a) + PointsOf(b)
  {
    FilterMapAppend(ParsePoint, a + [bad], b);
    FilterMapSnoc(ParsePoint, a, bad);
  }

  /** The polygon of a `points` text: absent when the text is null or empty, or when no token parses. */
  function PolygonOfText(text: Option<NetString>): (r: Polygon)
    ensures r.Some? ==> |r.value| > 0
    ensures r.None? <==> IsNullOrEmpty(text) || var toks := Split(text.value, ' ');
                                                forall i :: 0 <= i < |toks| ==> ParsePoint(toks[i]).None?
  {
    if IsNullOrEmpty(text) then None
    else
      SplitLength(text.value, ' ');
      FilterMapEmpty(ParsePoint, Split(text.value, ' '));
      Allocated(PointsOf(Split(text.value, ' ')))
  }

  /** Only the first `polygon` child element is consulted. */
  function PolygonOfNode(parent: Option<Node>): (r: Polygon)
    ensures r.Some? ==> |r.value| > 0
    ensures parent.None? || |GetNodeList(parent.value, "polygon")| == 0 ==> r.None?
    ensures parent.Some? && |GetNodeList(parent.value, "polygon")| > 0
            ==> r == PolygonOfText(GetValue(GetNodeList(parent.value, "polygon")[0], "points"))
  {
    if parent.None? then None
    else
      var polygons := GetNodeList(parent.value, "polygon");
      if |polygons| == 0 then None
      else PolygonOfText(GetValue(polygons[0], "points"))
  }

  /** A string yields at most one more piece than it has characters. */
  lemma {:induction false} SplitLength(s: string, sep: char)
    ensures |Split(s, sep)| <= |s| + 1
    decreases |s|
  {
    if |s| > 0 {
      SplitLength(s[1..], sep);
    }
  }

  /** `LoadPolygon(XMLNode)`: the first `polygon` child's `points` text, read token by token. */
  method LoadPolygonXml(parent: Option<Node>) returns (ret: Polygon)
    ensures ret == PolygonOfNode(parent)
  {
    if parent.None? {
      return None;
    }
    var polygonList := GetNodeList(parent.value, "polygon");
    if |polygonList| <= 0 {
      return None;
    }
    var str := GetValue(polygonList[0], "points");
    if IsNullOrEmpty(str) {
      return None;
    }
    var vecsStr := Split(str.value, ' ');
    SplitLength(str.value, ' ');
    ret := ParsePointTokens(vecsStr);
  }

  /**
    The token loop of `LoadPolygon(XMLNode)`: the result list is allocated on
    the first token that parses, so tokens of which none parses give `null`.
   */
  method ParsePointTokens(vecsStr: seq<string>) returns (ret: Polygon)
    requires |vecsStr| <= MaxInt32
    ensures ret == Allocated(PointsOf(vecsStr))
  {
    ret := None;
    for i := 0 to |vecsStr|
      invariant ret == Allocated(PointsOf(vecsStr[..i]))
    {
      PointsStep(vecsStr, i, ret);
      match ParsePoint(vecsStr[i])
      case None =>
      case Some(p) =>
        var pts := if ret.None? then [] else ret.value;
        ret := Some(pts + [p]);
    }
    assert vecsStr[..|vecsStr|] == vecsStr;
  }

  lemma PointsStep(toks: seq<string>, i: nat, ret: Polygon)
    requires i < |toks| <= MaxInt32
    requires ret == Allocated(PointsOf(toks[..i]))
    ensures Allocated(PointsOf(toks[..i + 1]))
         == match ParsePoint(toks[i])
            case None => ret
            case Some(p) => Some((if ret.None? then [] else ret.value) + [p])
  {
    assert toks[..i + 1] == toks[..i] + [toks[i]];
    FilterMapSnoc(ParsePoint, toks[..i], toks[i]);
  }

  // ---------------------------------------------------------------------
  // A reference writer for the markup form, used to state what the parser accepts.

  function PointText(p: Point): (r: string)
    ensures ' ' !in r
  {
    IntText(p.x) + "," + IntText(p.y)
  }

  /** The tokens of a `points` text, one `x,y` per point in order. */
  function PointTexts(ps: seq<Point>): (r: seq<string>)
  {
    seq(|ps|, i requires 0 <= i < |ps| => PointText(ps[i]))
  }

  /** Every point written as `x,y` parses back to itself. */
  lemma ParsePointText(p: Point)
    ensures ParsePoint(PointText(p)) == Some(p)
  {
    var fx, fy := IntText(p.x), IntText(p.y);
    assert PointText(p) == Join([fx, fy], ',');
    SplitJoin([fx, fy], ',');
    ParseIntText(p.x);
    ParseIntText(p.y);
  }

  /**
    A non-empty point list written as space-separated `x,y` tokens parses back
    to the same points in the same order.
   */
  lemma PointsTextRoundTrip(ps: List32<Point>)
    requires |ps| > 0
    requires |Join(PointTexts(ps), ' ')| <= 0x3FFF_FFDF
    ensures PolygonOfText(Some(Join(PointTexts(ps), ' '))) == Some(ps)
  {
    var toks := PointTexts(ps);
    SplitJoin(toks, ' ');
    PointsOfTexts(ps);
    assert |Join(toks, ' ')| > 0 by {
      assert |PointText(ps[0])| > 0;
      JoinHeadLength(toks, ' ');
    }
  }

  /** Tokens written as `x,y` all parse, to the points they were written from. */
  lemma PointsOfTexts(ps: seq<Point>)
    ensures PointsOf(PointTexts(ps)) == ps
  {
    var toks := PointTexts(ps);
    forall i | 0 <= i < |toks|
      ensures ParsePoint(toks[i]) == Some(ps[i])
    {
      ParsePointText(ps[i]);
    }
    FilterMapAllSome(ParsePoint, toks, ps);
  }

  lemma JoinHeadLength(pieces: seq<string>, sep: char)
    requires |pieces| > 0
    ensures |Join(pieces, sep)| >= |pieces[0]|
  {
  }

  /** Polygon children after the first never change the outcome. */
  lemma LaterPolygonsIgnored(n: Node, more: List32<Node>)
    requires |GetNodeList(n, "polygon")| > 0
    requires |n.children + more| <= MaxInt32
    ensures PolygonOfNode(Some(n.(children := n.children + more))) == PolygonOfNode(Some(n))
  {
    TaggedAppend(n.children, more, "polygon");
  }
}

=== FILE: property_codec.dfy ===
/**
  The property sub-codec (`PropertysLoader`) that the object codec calls
  between an object's scalar fields and its polygon. Its own source is not
  part of this model, so the object and group codecs take it as a parameter
  and rely only on the round-trip promise `RoundTrips`. `Listed` is one
  codec that keeps that promise: it writes a property count and then each
  name and value, which is not necessarily `PropertysLoader`'s own layout.
 */
module PropertyCodec {
  import opened Wrappers
  import opened Model
  import opened Stream

  datatype PropCodec = PropCodec(save: Props -> seq<Token>, load: seq<Token> -> Read<Props>)

  /**
    What the object codec needs of a property codec: reading back what it
    saved yields the same set (an empty set reads back absent) and stops
    exactly at the end of the record, and saving that again gives the same tokens.
   */
  ghost predicate RoundTrips(pc: PropCodec)
  {
    && (forall p, rest :: pc.load(pc.save(p) + rest) == Ok(Norm(p), rest))
    && (forall p :: pc.save(Norm(p)) == pc.save(p))
  }

  function SavePairs(ps: seq<Property>): (r: seq<Token>)
    ensures |r| == 2 * |ps|
  {
    if |ps| == 0 then [] else [S(ps[0].name), S(ps[0].value)] + SavePairs(ps[1..])
  }

  function SaveListed(p: Props): seq<Token>
  {
    match p
    case None => [I(0)]
    case Some(ps) => [I(|ps| as int32)] + SavePairs(ps)
  }

  function LoadPairs(ts: seq<Token>, n: nat): (r: Read<seq<Property>>)
    ensures r.Ok? ==> |r.value| == n
    decreases n
  {
    if n == 0 then Ok([], ts)
    else
      match ReadString(ts)
      case Fail => Fail
      case Ok(name, r1) =>
        match ReadString(r1)
        case Fail => Fail
        case Ok(value, r2) =>
          match LoadPairs(r2, n - 1)
          case Fail => Fail
          case Ok(ps, r3) => Ok([Property(name, value)] + ps, r3)
  }

  function LoadListed(ts: seq<Token>): Read<Props>
  {
    match ReadInt(ts)
    case Fail => Fail
    case Ok(cnt, rest) =>
      if cnt <= 0 then Ok(None, rest)
      else
        match LoadPairs(rest, cnt as int)
        case Fail => Fail
        case Ok(ps, r) => Ok(Some(ps), r)
  }

  const Listed: PropCodec := PropCodec(SaveListed, LoadListed)

  lemma {:induction false} PairsRoundTrip(ps: seq<Property>, rest: seq<Token>)
    ensures LoadPairs(SavePairs(ps) + rest, |ps|) == Ok(ps, rest)
    decreases |ps|
  {
    if |ps| > 0 {
      var ts := SavePairs(ps) + rest;
      assert ts == [S(ps[0].name), S(ps[0].value)] + (SavePairs(ps[1..]) + rest);
      assert ts[2..] == SavePairs(ps[1..]) + rest;
      PairsRoundTrip(ps[1..], rest);
      assert ps == [ps[0]] + ps[1..];
    } else {
      assert SavePairs(ps) + rest == rest;
    }
  }

  lemma ListedRoundTrip(p: Props, rest: seq<Token>)
    ensures LoadListed(SaveListed(p) + rest) == Ok(Norm(p), rest)
  {
    var ts := SaveListed(p) + rest;
    if p.Some? && |p.value| > 0 {
      assert ts == [I(|p.value| as int32)] + (SavePairs(p.value) + rest);
      assert ts[1..] == SavePairs(p.value) + rest;
      PairsRoundTrip(p.value, rest);
    } else {
      assert ts[1..] == rest;
    }
  }

  /** The count-prefixed layout keeps the promise the object codec relies on. */
  lemma ListedKeepsPromise()
    ensures RoundTrips(Listed)
  {
    forall p, rest
      ensures Listed.load(Listed.save(p) + rest) == Ok(Norm(p), rest)
    {
      ListedRoundTrip(p, rest);
    }
  }
}

=== FILE: scenarios.dfy ===
/**
  Concrete cases of the loader's behaviour: the one-group map saved and
  read back, a zero-group stream, point strings with and without a bad token,
  and markup groups that are skipped or defaulted.

  Several lemmas take their literal as a parameter pinned by a `requires`
  (`requires text == "0,0 bad"`). This keeps the literal's unfolding out of
  the caller's proof context, where the verifier would otherwise expand every
  string literal in scope at once.
 */
module Scenarios {
  import opened Wrappers
  import opened Model
  import opened Stream
  import opened Xml
  import opened DotNet
  import opened Seqs
  import opened PolygonCodec
  import opened PropertyCodec
  import opened ObjectCodec
  import opened GroupCodec

  const Spawn: ObjectLayer := ObjectLayer("Spawn", "spawn_point", 5, 5, 1, 1, Some([Property("team", "red")]), None)

  const Triggers: ObjectGroup := ObjectGroup("Triggers", 32, 32, [Spawn])

  const TriggersTokens: seq<Token> :=
    [I(1), S("Triggers"), I(32), I(32),
     I(1), S("Spawn"), S("spawn_point"), I(5), I(5), I(1), I(1),
     I(1), S("team"), S("red"),
     I(0)]

  /** The one-group map is written as exactly this token sequence. */
  lemma TriggersSaved()
    ensures SaveToBinary(Some([Triggers]), Listed) == TriggersTokens
  {
    var props := [I(1), S("team"), S("red")];
    assert SavePairs([Property("team", "red")]) == [S("team"), S("red")];
    assert Listed.save(Spawn.props) == props;
    var obj := [S("Spawn"), S("spawn_point"), I(5), I(5), I(1), I(1)] + props + [I(0)];
    assert SaveObject(Spawn, Listed) == obj;
    assert SaveObjectRecords([Spawn], Listed) == obj;
    assert SaveGroup(Triggers, Listed) == [S("Triggers"), I(32), I(32)] + [I(1)] + obj;
    assert SaveGroupRecords([Triggers], Listed) == SaveGroup(Triggers, Listed);
  }

  /** Reading that token sequence back gives exactly the one-group map, so saving it again gives the same tokens. */
  lemma TriggersRead()
    ensures LoadObjectGroup(Some(TriggersTokens), Listed) == Ok(Some([Triggers]), [])
  {
    TriggersSaved();
    ListedKeepsPromise();
    GroupsRoundTrip(Some([Triggers]), [], Listed);
    assert TriggersTokens + [] == TriggersTokens;
    assert NormLayers([Spawn]) == [Spawn];
    assert NormGroupSeq([Triggers]) == [Triggers];
  }

  /** A stream whose group count is 0 reads as `null`, not as an empty list, and only the count is consumed. */
  lemma ZeroGroupStream(rest: seq<Token>, pc: PropCodec)
    ensures LoadObjectGroup(Some([I(0)] + rest), pc) == Ok(None, rest)
  {
    assert ([I(0)] + rest)[1..] == rest;
  }

  lemma TextZero()
    ensures PointText(Point(0, 0)) == "0,0"
  {
    assert IntText(0) == [DigitChar(0)] == "0";
  }

  lemma TextTen()
    ensures IntText(10) == "10"
  {
    assert NatText(1) == [DigitChar(1)] == "1";
    assert NatText(10) == NatText(1) + [DigitChar(0)];
  }

  lemma SmallTexts()
    ensures PointText(Point(0, 0)) == "0,0"
    ensures PointText(Point(10, 0)) == "10,0"
    ensures PointText(Point(10, 10)) == "10,10"
  {
    TextZero();
    TextTen();
  }

  lemma ParseTen()
    ensures TryParseInt32(Some("10")) == Some(10)
  {
    TextTen();
    ParseIntText(10);
  }

  lemma JoinThree(a: string, b: string, c: string, sep: char)
    ensures Join([a, b, c], sep) == a + [sep] + b + [sep] + c
  {
    assert [a, b, c][1..] == [b, c];
    assert [b, c][1..] == [c];
    assert Join([b, c], sep) == b + [sep] + c;
    assert Join([a, b, c], sep) == a + [sep] + (b + [sep] + c);
  }

  /** Three space-free tokens joined by spaces split back into those tokens. */
  lemma SplitThree(text: string, a: string, b: string, c: string)
    requires ' ' !in a && ' ' !in b && ' ' !in c
    requires text == a + " " + b + " " + c
    ensures Split(text, ' ') == [a, b, c]
  {
    JoinThree(a, b, c, ' ');
    SplitJoin([a, b, c], ' ');
  }

  /** The polygon of a non-empty text is the allocated list of its tokens' points. */
  lemma PolygonOfTokens(text: NetString, toks: seq<string>)
    requires |text| > 0 && Split(text, ' ') == toks && |toks| <= MaxInt32
    ensures PolygonOfText(Some(text)) == Allocated(PointsOf(toks))
  {
  }

  lemma WellFormedPoints(toks: seq<string>)
    requires toks == ["0,0", "10,0", "10,10"]
    ensures PointsOf(toks) == [Point(0, 0), Point(10, 0), Point(10, 10)]
  {
    var ps := [Point(0, 0), Point(10, 0), Point(10, 10)];
    SmallTexts();
    assert toks == PointTexts(ps);
    PointsOfTexts(ps);
  }

  /** Well-formed point text yields its points in order. */
  lemma PointsExample(text: NetString)
    requires text == "0,0 10,0 10,10"
    ensures PolygonOfText(Some(text)) == Some([Point(0, 0), Point(10, 0), Point(10, 10)])
  {
    SplitThree(text, "0,0", "10,0", "10,10");
    WellFormedPoints(["0,0", "10,0", "10,10"]);
    PolygonOfTokens(text, ["0,0", "10,0", "10,10"]);
  }

  lemma SinglePoint(p: Point)
    ensures PointsOf([PointText(p)]) == [p]
  {
    ParsePointText(p);
    FilterMapAllSome(ParsePoint, [PointText(p)], [p]);
  }

  lemma BadBetweenPoints(p: Point, bad: string, q: Point)
    requires ParsePoint(bad).None?
    ensures PointsOf([PointText(p), bad, PointText(q)]) == [p, q]
  {
    BadTokenDropped([PointText(p)], bad, [PointText(q)]);
    assert [PointText(p)] + [bad] + [PointText(q)] == [PointText(p), bad, PointText(q)];
    SinglePoint(p);
    SinglePoint(q);
  }

  lemma PointsAroundBad(toks: seq<string>)
    requires toks == ["0,0", "bad", "10,10"]
    ensures PointsOf(toks) == [Point(0, 0), Point(10, 10)]
  {
    SmallTexts();
    assert ',' !in "bad";
    BadBetweenPoints(Point(0, 0), "bad", Point(10, 10));
  }

  /** A malformed token between two good ones is dropped and the others keep their order. */
  lemma BadTokenExample(text: NetString)
    requires text == "0,0 bad 10,10"
    ensures PolygonOfText(Some(text)) == Some([Point(0, 0), Point(10, 10)])
  {
    SplitThree(text, "0,0", "bad", "10,10");
    PointsAroundBad(["0,0", "bad", "10,10"]);
    PolygonOfTokens(text, ["0,0", "bad", "10,10"]);
  }

  const EmptyName: Node := Node("objectgroup", map["name" := "", "width" := "4"], [])
  const NoName: Node := Node("objectgroup", map["width" := "4", "height" := "4"], [])
  const Doors: Node := Node("objectgroup", map["name" := "Doors", "width" := "10", "height" := "tall"], [])
  const Level: Node := Node("map", map[], [EmptyName, NoName, Doors])

  /** The named element keeps its name and width; its unparsable height becomes 0. */
  lemma DoorsGroup(d: Node, propsOf: Node -> Props)
    requires d == Doors
    ensures Named(d) && GroupFromNode(d, propsOf) == ObjectGroup("Doors", 10, 0, [])
  {
    ParseTen();
    ParseRejectsNonDigit("tall", 0);
    assert GetValue(d, "name") == Some("Doors");
    assert GetValue(d, "width") == Some("10");
    assert GetValue(d, "height") == Some("tall");
    assert GetNodeList(d, "object") == [];
  }

  lemma UnnamedElements(e: Node, m: Node)
    requires e == EmptyName && m == NoName
    ensures !Named(e) && !Named(m)
  {
    assert GetValue(e, "name") == Some("");
    assert GetValue(m, "name") == None;
  }

  /** The three children of the level, with the middle one dropped, reduce to the named one. */
  lemma SkipTwo(e: Node, m: Node, d: Node, propsOf: Node -> Props)
    requires !Named(e) && !Named(m) && Named(d)
    ensures GroupsOf([e, m, d], propsOf) == [GroupFromNode(d, propsOf)]
  {
    NamelessGroupSkipped([e], m, [d], propsOf);
    FilterMapSnoc(MaybeGroup(propsOf), [], e);
    FilterMapSnoc(MaybeGroup(propsOf), [], d);
    assert [] + [e] == [e] && [] + [d] == [d];
    assert [e] + [m] + [d] == [e, m, d];
  }

  /**
    Group elements with an empty or missing name are skipped, and an
    unparsable height becomes 0 while the width is kept.
   */
  lemma MarkupGroupsExample(level: Node, propsOf: Node -> Props)
    requires level == Level
    ensures GroupsFromXml(Some(level), propsOf) == Some([ObjectGroup("Doors", 10, 0, [])])
  {
    var e, m, d := EmptyName, NoName, Doors;
    UnnamedElements(e, m);
    DoorsGroup(d, propsOf);
    TaggedAll(level.children, "objectgroup");
    assert GetNodeList(level, "objectgroup") == [e, m, d];
    SkipTwo(e, m, d, propsOf);
  }
}

=== FILE: seqs.dfy ===
/**
  The keep-what-parses pattern both markup loops follow: apply a partial
  conversion to each element in order and keep only the results it produces.
 */
module Seqs {
  import opened Wrappers

  function FilterMap<A, B>(f: A -> Option<B>, xs: seq<A>): (r: seq<B>)
    ensures |r| <= |xs|
  {
    if |xs| == 0 then []
    else
      var init := FilterMap(f, xs[..|xs| - 1]);
      match f(xs[|xs| - 1])
      case Some(y) => init + [y]
      case None => init
  }

  /** One more element adds its result, if it has one, at the end. */
  lemma FilterMapSnoc<A, B>(f: A -> Option<B>, xs: seq<A>, x: A)
    ensures FilterMap(f, xs + [x]) == if f(x).Some? then FilterMap(f, xs) + [f(x).value] else FilterMap(f, xs)
  {
    assert (xs + [x])[..|xs|] == xs;
  }

  /** Elements are handled independently: the results of a concatenation are the results of each part. */
  lemma {:induction false} FilterMapAppend<A, B>(f: A -> Option<B>, a: seq<A>, b: seq<A>)
    ensures FilterMap(f, a + b) == FilterMap(f, a) + FilterMap(f, b)
    decreases |b|
  {
    if |b| == 0 {
      assert a + b == a;
    } else {
      var b', last := b[..|b| - 1], b[|b| - 1];
      assert a + b == (a + b') + [last];
      assert b == b' + [last];
      FilterMapAppend(f, a, b');
      FilterMapSnoc(f, a + b', last);
      FilterMapSnoc(f, b', last);
    }
  }

  /** When every element converts, the results are exactly the conversions, in order. */
  lemma {:induction false} FilterMapAllSome<A, B>(f: A -> Option<B>, xs: seq<A>, ys: seq<B>)
    requires |xs| == |ys|
    requires forall i :: 0 <= i < |xs| ==> f(xs[i]) == Some(ys[i])
    ensures FilterMap(f, xs) == ys
    decreases |xs|
  {
    if |xs| > 0 {
      var n := |xs| - 1;
      FilterMapAllSome(f, xs[..n], ys[..n]);
      assert ys == ys[..n] + [ys[n]];
    }
  }

  /** Nothing is kept exactly when no element converts. */
  lemma {:induction false} FilterMapEmpty<A, B>(f: A -> Option<B>, xs: seq<A>)
    ensures |FilterMap(f, xs)| == 0 <==> forall i :: 0 <= i < |xs| ==> f(xs[i]).None?
    decreases |xs|
  {
    if |xs| > 0 {
      var n := |xs| - 1;
      FilterMapEmpty(f, xs[..n]);
      assert forall i :: 0 <= i < n ==> xs[..n][i] == xs[i];
    }
  }

  /** Every result comes from some element. */
  lemma {:induction false} FilterMapFrom<A, B>(f: A -> Option<B>, xs: seq<A>, k: nat)
    requires k < |FilterMap(f, xs)|
    ensures exists i :: 0 <= i < |xs| && f(xs[i]) == Some(FilterMap(f, xs)[k])
    decreases |xs|
  {
    var n := |xs| - 1;
    var init := FilterMap(f, xs[..n]);
    if k < |init| {
      FilterMapFrom(f, xs[..n], k);
      var i :| 0 <= i < n && f(xs[..n][i]) == Some(init[k]);
      assert xs[..n][i] == xs[i];
    } else {
      assert f(xs[n]) == Some(FilterMap(f, xs)[k]);
    }
  }
}

=== FILE: stream.dfy ===
/**
  The binary stream, seen through the primitive reader and writer the loader
  calls (`ReadInt`/`WriteInt`, `ReadString`/`WriteString`). Their byte layout is
  hidden behind one token per primitive record.
 */
module Stream {
  import opened Model

  datatype Token = I(n: int32) | S(s: string)

  /**
    The outcome of reading from the front of a token stream: the value read and
    the tokens left, or `Fail` when the stream ends early or holds the other kind
    of record (the primitive reader would throw).
   */
  datatype Read<+T> = Fail | Ok(value: T, rest: seq<Token>)

  function ReadInt(ts: seq<Token>): Read<int32>
  {
    if |ts| > 0 && ts[0].I? then Ok(ts[0].n, ts[1..]) else Fail
  }

  function ReadString(ts: seq<Token>): Read<string>
  {
    if |ts| > 0 && ts[0].S? then Ok(ts[0].s, ts[1..]) else Fail
  }
}

=== FILE: wrappers.dfy ===
/** The optional value used wherever the loader returns or stores `null`. */
module Wrappers {

  /** `None` stands for a C# `null` reference, `Some(v)` for a present value. */
  datatype Option<+T> = None | Some(value: T)
}

=== FILE: xml.dfy ===
/**
  The markup tree, seen through the two accessors the loader calls:
  `GetNodeList(tag)` for the child elements with a tag, and `GetValue("@attr")`
  for an attribute's text.
 */
module Xml {
  import opened Wrappers
  import opened Model

  /** A .NET string: its length never exceeds 0x3FFFFFDF characters. */
  type NetString = s: string | |s| <= 0x3FFF_FFDF

  datatype Node = Node(tag: string, attrs: map<string, NetString>, children: List32<Node>)

  /** The elements of `cs` whose tag is `tag`, in document order. */
  function Tagged(cs: seq<Node>, tag: string): (r: seq<Node>)
    ensures |r| <= |cs|
    ensures forall i :: 0 <= i < |r| ==> r[i].tag == tag
  {
    if |cs| == 0 then []
    else if cs[0].tag == tag then [cs[0]] + Tagged(cs[1..], tag)
    else Tagged(cs[1..], tag)
  }

  /** Filtering a concatenation filters each part. */
  lemma {:induction false} TaggedAppend(a: seq<Node>, b: seq<Node>, tag: string)
    ensures Tagged(a + b, tag) == Tagged(a, tag) + Tagged(b, tag)
    decreases |a|
  {
    if |a| > 0 {
      assert (a + b)[1..] == a[1..] + b;
      TaggedAppend(a[1..], b, tag);
    } else {
      assert a + b == b;
    }
  }

  /** When every element carries the tag, filtering keeps them all. */
  lemma {:induction false} TaggedAll(cs: seq<Node>, tag: string)
    requires forall i :: 0 <= i < |cs| ==> cs[i].tag == tag
    ensures Tagged(cs, tag) == cs
    decreases |cs|
  {
    if |cs| > 0 {
      TaggedAll(cs[1..], tag);
    }
  }

  function GetNodeList(n: Node, tag: string): (r: List32<Node>)
  {
    Tagged(n.children, tag)
  }

  /** An attribute's text, or `None` (the C# `null`) when the element has no such attribute. */
  function GetValue(n: Node, attr: string): Option<NetString>
  {
    if attr in n.attrs then Some(n.attrs[attr]) else None
  }
}
